=== FILE: README.md ===
# ExpoMap region engine, modelled in Dafny

ExpoMap shows a venue floor plan as a Leaflet map and draws rectangular
"stands" on it. Users can find stands by category, by text search or from
their favourites. An admin mode lets an operator click two corners on the map
to write a JSON snippet for a new stand. This project models the pure logic
inside `app.js` and proves properties about it:

- `Geometry`: converts image bounds `[x1, y1, x2, y2]` to a Leaflet rectangle
  (`boundsToLatLngBounds`), and models `clamp`.
- `Stands`: ingests the fetched record array (`loadStands`, with its defaults
  and its drop rule), handles load errors, and builds the category list.
- `Filters`: the list filter (`applyFilters`) with its `fav:` query mode, plus
  the quick-chip and category-selector handlers that rewrite the filter inputs.
- `Style`: maps the pair (visible, favourite) to a rectangle style
  (`styleStandLayers`).
- `Favorites`: the modal title and the favourite button, which toggles an id
  that it parses back out of that title.
- `Capture`: the admin two-corner capture. It is an explicit state record with
  one transition function per user action (admin button, corner buttons, map
  click, clear). It also covers the rectangle read-out and the snippet.
- `Text`, `Seqs` and `Options`: the string and list operations these modules
  rely on (`trim`, `startsWith`, `includes`, `split`, `escapeHtml`, `filter`,
  `[...new Set(xs)]`), plus the optional-value and result types.

Conventions:

- A field that is `null` or `undefined` is `None`.
- Numbers are reals.
- Two operations are left as parameters, and the lemmas that need a fact about
  one of them state that fact as a precondition:
  - the Unicode text normaliser `normalizeText` is the parameter `norm`;
  - the `toFixed(1)` rounding is the parameter `round`.

Behaviour of `app.js` worth noting:

- There is no vertical flip. Latitude is the image y and longitude the image
  x, as `CRS.Simple` is used here.
- Pressing a corner button again does not cancel the earlier listener. The
  next click fires every pending listener, including any armed before admin
  mode was switched off.
- The snippet keeps the two corners in capture order. Only drawing a stand
  orders them into min/max.
- There is no "selected" style and no focus state. The only styles are
  favourite/non-favourite colours and visible/filtered-out opacities.
- Ingestion checks only that the id is non-empty and that `bounds` is an array
  of exactly four entries. It does not reorder the bounds, check the numbers,
  reject duplicate ids or count the dropped records.

## Model

| member | source | states |
|---|---|---|
| Geometry.Clamp | app.js:62 | When the bounds are ordered, the result lies in `[a, b]` and equals `n` whenever `n` is already inside. Below `a` the result is `a`, above `b` it is `b`. With `b < a` the result is always `a`. |
| Geometry.BoundsToLatLngBounds | app.js:64-71 | The rectangle has south-west ≤ north-east on both axes. It contains both corner points, with latitude = y and longitude = x. Each side takes its value from one of the two given coordinates. |
| Geometry.BoundsAreTightest | app.js:66-71 | Any rectangle that contains both corner points also contains the computed rectangle, so the computed one is the smallest enclosing box. |
| Geometry.CornerOrderIrrelevant | app.js:66-71 | Swapping the two x values, the two y values, or both gives the same rectangle. |
| Geometry.OrderedBoundsUnchanged | app.js:64-71 | Bounds that are already ordered map straight to corners (y1, x1) and (y2, x2): the vertical axis is not inverted. |
| Geometry.WholePlanRectangle | app.js:106 | The stand rectangle of `[0, 0, MAP_W, MAP_H]` is exactly the image overlay's bounds `[[0, 0], [MAP_H, MAP_W]]`. |
| Text.Trim | app.js:194 | The trimmed query has no JavaScript white space at either end. The original string is the result with white space added on both sides. |
| Text.TrimPadded | app.js:371 | Trimming a trimmed string padded with white space gives that string back. Together with `Trim`'s contract, this fixes the result uniquely. |
| Text.BeforeFirst | app.js:371 | `split(sep)[0]` returns the prefix before the first separator: it contains no separator, and it is followed by a separator unless it is the whole string. |
| Text.EscapeHtml | app.js:86-90 | The output contains no raw `<`, `>`, `"` or `'`, and is at least as long as the input. |
| Text.EscapeHtmlRoundTrip | app.js:86-90 | Decoding the five entities in the output gives back the input, so escaping loses no text. |
| Seqs.Uniq | app.js:77-79 | The result has no duplicates and holds exactly the input's values. Its order is the order of each value's first occurrence. |
| Seqs.UniqIdempotent | app.js:77-79 | De-duplicating twice gives the same list as de-duplicating once. |
| Stands.KeptRecordDefaults | app.js:133-141 | A record is kept exactly when it has a present, non-empty id and a four-entry bounds array. A kept record's missing name or token becomes its id, a missing category becomes "General", and a missing description or note becomes "". A present name, category, description, note or token is kept as given. The "Stand" and "demo" fallbacks only apply to records that are dropped. |
| Stands.Ingest | app.js:133-141 | Every output stand passes the filter. The output is an order-preserving sub-list of the converted input. Every well-formed record appears in it, with the same number of copies as in the input. |
| Stands.IngestAllWellFormed | app.js:133-141 | When every record is well-formed, nothing is dropped or reordered. |
| Stands.LoadStands | app.js:128-141 | A rejected fetch, a non-OK response, a body that is not JSON, and a non-array body are four distinct errors. The load succeeds exactly for an OK response with an array body, and then yields the ingested array. |
| Stands.StoreAfterInit | app.js:452-457 | A rejected fetch, a failed status or a body that is not a JSON array is caught before the store is assigned, so the store stays empty. After an OK response with an array body the store holds exactly the ingested records. |
| Stands.Categories | app.js:143 | The category list has no duplicates and contains exactly the categories some stand has. |
| Filters.ApplyFilters | app.js:193-208 | The shown list is an order-preserving sub-list of the stands. It contains exactly the stands the filter callback accepts, each with as many copies as the store holds. |
| Filters.NoFilterShowsAll | app.js:197-200 | With category "all" and a blank trimmed query, the shown list is the whole store, in order. |
| Filters.CategoryIsExact | app.js:198 | When a category is chosen, every shown stand has exactly that category, whatever the query. |
| Filters.FavQueryShowsFavorites | app.js:202-204 | When the normalised query starts with `fav:`, the shown list is exactly the favourites that also pass the category test, in store order. |
| Filters.FavSuffixIgnored | app.js:202-204 | Two `fav:` queries with the same category show the same list, whatever follows the prefix. |
| Filters.TextQueryIsSubstring | app.js:206-207 | Any other non-empty query shows exactly the stands of the chosen category whose normalised `id name category desc` text contains the query. |
| Filters.QuickChip | app.js:158-166 | The "Favoritos" chip sets the query to exactly `fav:` and the category to "all". Any other chip clears the query and selects its own category. |
| Filters.FavoritesChipShowsFavorites | app.js:158-166 | After the "Favoritos" chip, the list is exactly the favourites of every category, in store order. |
| Filters.CategoryChipShowsCategory | app.js:158-166 | After a category chip (other than one named "Favoritos" or "all"), the list is exactly that category's stands. |
| Filters.ChangeCategory | app.js:348-352 | A category change takes the new category and clears a query whose trimmed raw text starts with `fav:`. It keeps any other query. Afterwards the raw query never starts with `fav:`. |
| Filters.UpperCaseFavSurvivesCategoryChange | app.js:348-352 | The clearing test is case-sensitive. A `FAV:` query survives a category change and, once lower-cased by the normaliser, still filters by favourites. |
| Style.StyleFor | app.js:260-265 | Outline and fill colour are #43f58a for favourites and #5ee7ff otherwise. Opacity is 1 for shown stands and 0.15 for filtered-out ones; fill opacity is 0.12 and 0.02. |
| Style.ColorIgnoresVisibility | app.js:259-265 | Outline and fill colours depend only on favourite status. |
| Style.OpacityIgnoresFavorite | app.js:260-262 | Outline and fill opacities depend only on visibility. |
| Style.StylesDistinguishFlags | app.js:260-265 | Favourites get a different colour from other stands. Filtered-out stands are fainter than shown ones, in both outline and fill. |
| Style.StyleStandLayers | app.js:253-266 | There is one layer style per stand id. Stands that share an id agree on it, so the order of writes does not matter. Its colour is green for favourites and cyan otherwise. Its opacity is 1 when some shown stand has that id and 0.15 otherwise. |
| Style.OpacityFollowsFilter | app.js:253-262 | After filtering, a stand's layer is fully opaque exactly when some stand with its id passes the filter. |
| Favorites.TitleRoundTrip | app.js:369-375 | Parsing the title `${id} — ${name}` (built at line 275) gives back the id whenever the id has no em dash and no white space at its ends. |
| Favorites.ToggleFromTitle | app.js:369-375 | The button flips the membership of the id parsed from the title and leaves every other id alone. An empty parsed id changes nothing. |
| Favorites.ToggleTwiceRestores | app.js:374-375 | Toggling twice from the same title restores the favourites. |
| Favorites.ToggleFlipsStandId | app.js:369-375 | For an ordinary id, the button flips exactly the shown stand's id. |
| Favorites.DashedIdMisread | app.js:371 | For an id `a—b`, the button toggles `a`, a different id. |
| Favorites.PaddedIdMisread | app.js:371 | For an id with a leading space, the button toggles the unpadded id, a different one. |
| Favorites.ToggleStand | app.js:369-375 | The corrected toggle, keyed by the stand's own id: it flips exactly that id. |
| Favorites.ToggleStandInvolution | app.js:374-375 | The corrected toggle is an involution. For ids the title parse handles, it agrees with the as-written toggle. |
| Capture.SetAdmin | app.js:304-309 | The admin button sets the admin flag and nothing else: corners, armed listeners, click read-out and snippet are unchanged. |
| Capture.Arm | app.js:390-412 | Outside admin mode a corner button changes nothing. In admin mode it appends one listener for its corner and keeps the earlier ones. |
| Capture.Clear | app.js:414-419 | Clear resets both corners but keeps every armed listener, the admin flag, the click read-out and the previous snippet text. |
| Capture.Click | app.js:114-124 | A map click empties the pending listeners and keeps the admin flag. The general click handler, registered first by `initMap`, updates the "last click" read-out only in admin mode. |
| Capture.FireAllEffect | app.js:393-398 | Firing a run of listeners sets each named corner to the click point and keeps the others. The snippet follows the final corners if both are set. |
| Capture.ClickEffect | app.js:390-412 | A click empties the pending listeners and sets every armed corner to the point. It updates the click read-out only in admin mode, and rewrites the snippet when a listener fired and both corners are set. |
| Capture.TransitionsKeepSync | app.js:311-328 | Every action preserves the invariant that, whenever both corners are set, the snippet shows them. |
| Capture.ArmIgnoredOutsideAdmin | app.js:391 | Pressing a corner button outside admin mode has no effect on what a later click does. |
| Capture.DoubleArmActsOnce | app.js:390-400 | Arming a corner twice and then clicking gives the same state as arming it once. |
| Capture.ArmBothThenClick | app.js:390-412 | Arming both corners and then clicking once sets both corners to the same point. |
| Capture.ListenerOutlivesAdmin | app.js:390-412 | A listener armed in admin mode still captures after admin mode is turned off. |
| Capture.ClearKeepsListeners | app.js:414-419 | A listener armed before Clear still captures on the next click. |
| Capture.RectText | app.js:311-318 | The read-out shows numbers exactly when both corners are set, and "—" otherwise. The numbers are the rounded x1, y1, x2, y2 in capture order, with x the longitude and y the latitude of each corner. |
| Capture.RectTextMatchesSnippet | app.js:311-327 | Whenever both corners are set and the snippet is in step with them, the read-out and the snippet bounds are the same four rounded numbers. |
| Capture.Snippet | app.js:319-327 | The snippet bounds are the rounded `[x1, y1, x2, y2]` in capture order. |
| Capture.SnippetIngests | app.js:319-327 | A pasted snippet is accepted by ingestion unchanged. Its drawn rectangle does not depend on which corner was captured first. |
| Capture.CaptureScenario | app.js:390-412 | Capturing (10, 20) as corner 1 and then (30, 5) as corner 2 gives the snippet bounds `[10, 20, 30, 5]`. The drawn rectangle runs from (5, 10) to (20, 30). |

## Left out

- Leaflet itself is not modelled: map creation, the image overlay, rectangle
  layers and `fitBounds(llb.pad(0.25))`. It is a foreign library.
- The initial style set in `drawStands` is not modelled. It is rendering, and
  `styleStandLayers` overrides it on every registered layer whenever the
  filters are applied.
- Layers of stands that share an id are not modelled. `drawStands`
  (app.js:177-189) draws a rectangle for every stand but registers only the
  last one per id in `standLayers`. The earlier rectangles of that id keep
  their initial style and are never restyled. Because `standLayers` forgets
  them, the next `drawStands` (app.js:174) does not remove them either, so
  every favourite toggle (app.js:378) leaves one more behind.
  `Style.StyleStandLayers` describes the registered layers only.
- DOM rendering is not modelled: `setSelectOptions`, `renderQuickCats`,
  `renderStats`, `renderList`, the modal content other than its title,
  `closeModal`, the sidebar and the media queries. This is presentation.
- `normalizeText` is the parameter `norm`, because Unicode lower-casing and
  NFD diacritic removal are outside the model.
- The category sort with `localeCompare` is not modelled, because locale
  collation is outside the model. `Stands.Categories` keeps first-appearance
  order.
- The `fetch` call and JSON parsing are abstracted as a `Fetched` value: a
  rejected promise, or a response with its parsed body. The `String(...)` and
  `Number(...)` coercions of field values are taken as given.
- A `null` element of the JSON array makes `s.id` throw inside `loadStands`.
  `init` catches that like any other load error, and the store stays empty.
  That path is not modelled. A number, string, boolean or array element reads
  every field as `undefined`; it is modelled as a `RawStand` with every field
  `None`, which ingestion drops.
- The `if (!layer) return` guard in `styleStandLayers` is not modelled:
  for finite bounds, `drawStands` registers a layer for every stand id before
  any styling happens. A NaN bound is the exception described below.
- `toFixed(1)` is the parameter `round`. The formatted read-out string is
  represented by its four numbers.
- Saving favourites to `localStorage`, export to a file, the clipboard, the
  help `alert` and `toast` timers are not modelled. They are I/O or
  asynchronous UI.
- Geometry.BoundsToLatLngBounds: bound entries are reals. A NaN produced by
  `Number(...)` is not modelled, and ingestion does not reject one either.
  Such a record is kept (app.js:141) and the store is assigned (app.js:133).
  `drawStands` (app.js:146) then passes the NaN to Leaflet's `LatLng`, which
  throws according to Leaflet's documented behaviour (Leaflet's code is not
  part of this model). So `loadStands` aborts after the store is filled but
  before `applyFilters` (app.js:147). `init` catches the error, the list and the
  counts are not rendered until the next input, and stands after the bad one get no layer,
  which the `if (!layer) return` guard (app.js:256) then skips.
- Filters.ApplyFilters: the properties that need the normaliser depend only on
  the facts stated as preconditions: `norm("") == ""`,
  `norm("fav:") == "fav:"` and, for `UpperCaseFavSurvivesCategoryChange`,
  `norm("FAV:") == "fav:"`. All three hold of `normalizeText`.

## Findings

| source | as written | input that shows it | evidently intended | confidence | as-written member | corrected member |
|---|---|---|---|---|---|---|
| app.js:369-375 | The favourite button recovers the stand id from the modal title with `split("—")[0].trim()` | A stand with id `A—1` toggles `A`. A stand with id ` A1` toggles `A1`. | Toggle the id of the stand the modal was opened for | medium; not executed | Favorites.DashedIdMisread | Favorites.ToggleStand |

=== FILE: capture.dfy ===
/** The admin two-corner capture of app.js, as an explicit state record.

    Each "corner" button, while admin mode is on, registers a one-shot map
    click listener. Listeners are never cancelled: arming twice registers
    two. The next map click fires every pending listener in registration
    order, whatever the admin flag is by then (Leaflet keeps firing the
    remaining listeners while each one unregisters itself); each sets its
    corner to the clicked point and calls `setRectText`. "Clear" forgets the
    corners but not the listeners. `setRectText` writes the rectangle read-out
    and, when both corners are present, the JSON snippet; with a corner
    missing it shows "—" and leaves the snippet text as it was. */
module Capture {
  import opened Options
  import opened Geometry
  import Stands

  /** Corner 1 (`rectStart`) or corner 2 (`rectEnd`). */
  datatype Corner = First | Second

  datatype CornerPair = CornerPair(start: LatLng, end: LatLng)

  datatype CaptureState = CaptureState(
    admin: bool,
    rectStart: Option<LatLng>,
    rectEnd: Option<LatLng>,
    /** The armed one-shot listeners, in registration order. */
    pending: seq<Corner>,
    /** The point shown in the "last click" read-out. */
    lastClick: Option<LatLng>,
    /** The corners the JSON snippet text was last written from. */
    snippetFrom: Option<CornerPair>)

  const Initial := CaptureState(false, None, None, [], None, None)

  predicate HasBoth(st: CaptureState) {
    st.rectStart.Some? && st.rectEnd.Some?
  }

  /** The admin button (`setAdmin`). Armed listeners stay armed. */
  function SetAdmin(st: CaptureState, on: bool): (r: CaptureState)
    ensures r.admin == on
    ensures r.pending == st.pending && r.rectStart == st.rectStart && r.rectEnd == st.rectEnd
    ensures r.lastClick == st.lastClick && r.snippetFrom == st.snippetFrom
  {
    st.(admin := on)
  }

  /** A corner button: outside admin mode nothing happens; in admin mode one
      more listener for that corner is registered, earlier ones included. */
  function Arm(st: CaptureState, c: Corner): (r: CaptureState)
    ensures !st.admin ==> r == st
    ensures st.admin ==> r.pending == st.pending + [c]
    ensures r.admin == st.admin && r.rectStart == st.rectStart && r.rectEnd == st.rectEnd
    ensures r.snippetFrom == st.snippetFrom && r.lastClick == st.lastClick
  {
    if !st.admin then st else st.(pending := st.pending + [c])
  }

  /** `setRectText`: the snippet is rewritten only when both corners are set. */
  function SetRectText(st: CaptureState): CaptureState {
    if HasBoth(st) then st.(snippetFrom := Some(CornerPair(st.rectStart.value, st.rectEnd.value))) else st
  }

  /** One listener firing: set its corner, then `setRectText`. */
  function Fire(st: CaptureState, c: Corner, p: LatLng): CaptureState {
    SetRectText(if c == First then st.(rectStart := Some(p)) else st.(rectEnd := Some(p)))
  }

  function FireAll(st: CaptureState, cs: seq<Corner>, p: LatLng): CaptureState
    decreases |cs|
  {
    if |cs| == 0 then st else FireAll(Fire(st, cs[0], p), cs[1..], p)
  }

  /** A map click at `p`: the general handler (registered first) updates the
      read-out in admin mode, then every pending listener fires and
      unregisters itself. */
  function Click(st: CaptureState, p: LatLng): (r: CaptureState)
    ensures r.pending == [] && r.admin == st.admin
    ensures r.lastClick == (if st.admin then Some(p) else st.lastClick)
  {
    var seen := if st.admin then st.(lastClick := Some(p)) else st;
    FireAllEffect(seen, st.pending, p);
    FireAll(seen, st.pending, p).(pending := [])
  }

  /** The "clear" button: both corners reset, listeners untouched. */
  function Clear(st: CaptureState): (r: CaptureState)
    ensures r.rectStart.None? && r.rectEnd.None?
    ensures r.pending == st.pending && r.admin == st.admin
    ensures r.snippetFrom == st.snippetFrom && r.lastClick == st.lastClick
  {
    SetRectText(st.(rectStart := None, rectEnd := None))
  }

  /** Firing a run of listeners, in closed form: each corner named in the
      run ends at `p`, the others are kept, and the snippet follows the final
      corners if any listener fired and both are set. */
  lemma {:induction false} FireAllEffect(st: CaptureState, cs: seq<Corner>, p: LatLng)
    ensures var r := FireAll(st, cs, p);
      && r.rectStart == (if First in cs then Some(p) else st.rectStart)
      && r.rectEnd == (if Second in cs then Some(p) else st.rectEnd)
      && r.admin == st.admin && r.pending == st.pending && r.lastClick == st.lastClick
      && r.snippetFrom == (if |cs| > 0 && HasBoth(r) then Some(CornerPair(r.rectStart.value, r.rectEnd.value))
                           else st.snippetFrom)
    decreases |cs|
  {
    if |cs| > 0 {
      var st1 := Fire(st, cs[0], p);
      FireAllEffect(st1, cs[1..], p);
      assert cs == [cs[0]] + cs[1..];
    }
  }

  /** A click, in closed form. */
  lemma ClickEffect(st: CaptureState, p: LatLng)
    ensures var r := Click(st, p);
      && r.pending == []
      && r.admin == st.admin
      && r.lastClick == (if st.admin then Some(p) else st.lastClick)
      && r.rectStart == (if First in st.pending then Some(p) else st.rectStart)
      && r.rectEnd == (if Second in st.pending then Some(p) else st.rectEnd)
      && r.snippetFrom == (if |st.pending| > 0 && HasBoth(r) then Some(CornerPair(r.rectStart.value, r.rectEnd.value))
                           else st.snippetFrom)
  {
    var seen := if st.admin then st.(lastClick := Some(p)) else st;
    FireAllEffect(seen, st.pending, p);
  }

  /** The snippet text shows the current corners whenever both are set. */
  predicate InSync(st: CaptureState) {
    HasBoth(st) ==> st.snippetFrom == Some(CornerPair(st.rectStart.value, st.rectEnd.value))
  }

  /** Every user action keeps the snippet in step with the corners. */
  lemma TransitionsKeepSync(st: CaptureState, c: Corner, on: bool, p: LatLng)
    requires InSync(st)
    ensures InSync(SetAdmin(st, on)) && InSync(Arm(st, c)) && InSync(Clear(st)) && InSync(Click(st, p))
  {
    ClickEffect(st, p);
  }

  /** Outside admin mode the corner buttons do nothing at all. */
  lemma ArmIgnoredOutsideAdmin(st: CaptureState, c: Corner, p: LatLng)
    requires !st.admin
    ensures Click(Arm(st, c), p) == Click(st, p)
  {
  }

  /** Arming the same corner twice before a click has the effect of arming
      it once: both listeners write the same point. */
  lemma DoubleArmActsOnce(st: CaptureState, c: Corner, p: LatLng)
    requires st.admin
    ensures Click(Arm(Arm(st, c), c), p) == Click(Arm(st, c), p)
  {
    ClickEffect(Arm(Arm(st, c), c), p);
    ClickEffect(Arm(st, c), p);
  }

  /** Arming both corners before one click puts both at the clicked point:
      a degenerate rectangle. */
  lemma ArmBothThenClick(st: CaptureState, p: LatLng)
    requires st.admin
    ensures var r := Click(Arm(Arm(st, First), Second), p);
      r.rectStart == Some(p) && r.rectEnd == Some(p) && r.snippetFrom == Some(CornerPair(p, p))
  {
    ClickEffect(Arm(Arm(st, First), Second), p);
  }

  /** A listener armed in admin mode still fires after admin mode is turned
      off, although the click read-out no longer updates. */
  lemma ListenerOutlivesAdmin(st: CaptureState, c: Corner, p: LatLng)
    requires st.admin
    ensures var r := Click(SetAdmin(Arm(st, c), false), p);
      && (c == First ==> r.rectStart == Some(p))
      && (c == Second ==> r.rectEnd == Some(p))
      && r.lastClick == st.lastClick
  {
    ClickEffect(SetAdmin(Arm(st, c), false), p);
  }

  /** "Clear" leaves armed listeners armed: the next click still captures. */
  lemma ClearKeepsListeners(st: CaptureState, p: LatLng)
    requires st.admin
    ensures Click(Clear(Arm(st, First)), p).rectStart == Some(p)
  {
    ClickEffect(Clear(Arm(st, First)), p);
  }

  /** The rectangle read-out: the four rounded numbers `x1, y1, x2, y2` in
      capture order, or "—" (`None`) while a corner is missing. `round`
      stands for `toFixed(1)`. */
  function RectText(st: CaptureState, round: real -> real): (t: Option<seq<real>>)
    ensures t.Some? <==> HasBoth(st)
    ensures t.Some? ==> t.value == [round(st.rectStart.value.lng), round(st.rectStart.value.lat),
                                    round(st.rectEnd.value.lng), round(st.rectEnd.value.lat)]
  {
    if HasBoth(st) then
      var a, b := st.rectStart.value, st.rectEnd.value;
      Some([round(a.lng), round(a.lat), round(b.lng), round(b.lat)])
    else None
  }

  /** The read-out and the snippet show the same four numbers whenever both
      corners are set. */
  lemma RectTextMatchesSnippet(st: CaptureState, round: real -> real)
    requires InSync(st) && HasBoth(st)
    ensures RectText(st, round) == Some(Snippet(st.snippetFrom.value, round).bounds.value)
  {
  }

  /** The JSON snippet, as the record it asks to be pasted into the stand
      list: fixed demo fields and the corners as `[x1, y1, x2, y2]`. */
  function Snippet(pair: CornerPair, round: real -> real): (raw: Stands.RawStand)
    ensures raw.bounds == Some([round(pair.start.lng), round(pair.start.lat),
                                round(pair.end.lng), round(pair.end.lat)])
  {
    Stands.RawStand(
      id := Some("A01"),
      name := Some("Stand A01"),
      category := Some("IA & Datos"),
      desc := Some("Demo de contenido del stand"),
      note := Some("Aqu\U{00ED} puedes agregar links/CTA"),
      token := Some("A01"),
      bounds := Some([round(pair.start.lng), round(pair.start.lat), round(pair.end.lng), round(pair.end.lat)]))
  }

  /** A pasted snippet is accepted by ingestion with its bounds unreordered,
      and the stand's rectangle does not depend on which corner was
      captured first: normalisation happens only when drawing. */
  lemma SnippetIngests(a: LatLng, b: LatLng, round: real -> real)
    ensures var raw := Snippet(CornerPair(a, b), round);
      && Stands.WellFormed(raw)
      && Stands.Ingest([raw]) == [Stands.ToStand(raw)]
    ensures BoundsToLatLngBounds(Snippet(CornerPair(a, b), round).bounds.value)
            == BoundsToLatLngBounds(Snippet(CornerPair(b, a), round).bounds.value)
  {
    var raw := Snippet(CornerPair(a, b), round);
    Stands.IngestAllWellFormed([raw]);
    CornerOrderIrrelevant(round(a.lng), round(a.lat), round(b.lng), round(b.lat));
  }

  /** Corner 1 at (x 10, y 20), then corner 2 at (x 30, y 5): the snippet
      keeps the capture order `[10, 20, 30, 5]`; the drawn rectangle is
      the normalised one from (5, 10) to (20, 30). */
  lemma CaptureScenario()
    ensures var st := Click(Arm(Click(Arm(SetAdmin(Initial, true), First), LatLng(20.0, 10.0)), Second),
                            LatLng(5.0, 30.0));
      && st.snippetFrom == Some(CornerPair(LatLng(20.0, 10.0), LatLng(5.0, 30.0)))
      && RectText(st, x => x) == Some([10.0, 20.0, 30.0, 5.0])
      && BoundsToLatLngBounds([10.0, 20.0, 30.0, 5.0]) == LatLngBounds(LatLng(5.0, 10.0), LatLng(20.0, 30.0))
  {
    var s1 := Arm(SetAdmin(Initial, true), First);
    ClickEffect(s1, LatLng(20.0, 10.0));
    var s2 := Arm(Click(s1, LatLng(20.0, 10.0)), Second);
    ClickEffect(s2, LatLng(5.0, 30.0));
  }
}

=== FILE: favorites.dfy ===
/** The favourite toggle of the stand modal. The modal title is
    `${id} — ${name}`; the favourite button does not keep the stand it was
    opened for, but recovers the id with `title.split("—")[0].trim()`,
    ignores an empty id, and flips that id's membership. */
module Favorites {
  import opened Stands
  import Text

  /** U+2014 EM DASH, the title separator. */
  const EmDash: char := '\U{2014}'

  /** The modal title set by `openStand`. */
  function Title(s: Stand): string {
    s.id + " " + [EmDash] + " " + s.name
  }

  /** The id the favourite handler reads back from a title. */
  function IdFromTitle(title: string): string {
    Text.Trim(Text.BeforeFirst(title, EmDash))
  }

  /** Flip the membership of one id. */
  function Flip(favorites: set<string>, id: string): (r: set<string>)
    ensures id in r <==> id !in favorites
    ensures forall x :: x != id ==> (x in r <==> x in favorites)
  {
    if id in favorites then favorites - {id} else favorites + {id}
  }

  /** The favourite button handler, as written: parse the title, do nothing
      on an empty id, otherwise flip it. */
  function ToggleFromTitle(favorites: set<string>, title: string): (r: set<string>)
    ensures IdFromTitle(title) == "" ==> r == favorites
    ensures IdFromTitle(title) != "" ==>
      (IdFromTitle(title) in r <==> IdFromTitle(title) !in favorites)
    ensures forall x :: x != IdFromTitle(title) ==> (x in r <==> x in favorites)
  {
    var id := IdFromTitle(title);
    if id == "" then favorites else Flip(favorites, id)
  }

  /** The title is parsed back to the stand's id whenever the id contains
      no em dash and has no white space at either end. */
  lemma TitleRoundTrip(s: Stand)
    requires EmDash !in s.id && Text.IsTrimmed(s.id)
    ensures IdFromTitle(Title(s)) == s.id
  {
    var rest := " " + s.name;
    assert Title(s) == (s.id + " ") + [EmDash] + rest;
    assert EmDash !in s.id + " ";
    Text.BeforeFirstAt(s.id + " ", EmDash, rest);
    Text.TrimPadded("", s.id, " ");
    assert "" + s.id + " " == s.id + " ";
  }

  /** Toggling from the same title twice restores the favourites. */
  lemma ToggleTwiceRestores(favorites: set<string>, title: string)
    ensures ToggleFromTitle(ToggleFromTitle(favorites, title), title) == favorites
  {
  }

  /** For an ordinary stand id, the handler flips exactly that id. */
  lemma ToggleFlipsStandId(favorites: set<string>, s: Stand)
    requires s.id != "" && EmDash !in s.id && Text.IsTrimmed(s.id)
    ensures ToggleFromTitle(favorites, Title(s)) == Flip(favorites, s.id)
  {
    TitleRoundTrip(s);
  }

  /** An id holding an em dash is cut at its first one: the button of a
      stand with id `a—b` toggles `a`, a different id. */
  lemma DashedIdMisread(favorites: set<string>, s: Stand, a: string, b: string)
    requires s.id == a + [EmDash] + b
    requires a != "" && EmDash !in a && Text.IsTrimmed(a)
    ensures IdFromTitle(Title(s)) == a != s.id
    ensures ToggleFromTitle(favorites, Title(s)) == Flip(favorites, a)
  {
    var title := Title(s);
    var rest := b + " " + [EmDash] + " " + s.name;
    assert Text.BeforeFirst(title, EmDash) == a by {
      TitleOfDashedId(s, a, b, rest);
      Text.BeforeFirstAt(a, EmDash, rest);
    }
    assert IdFromTitle(title) == a by {
      Text.TrimOfTrimmed(a);
    }
    assert a != s.id by {
      assert |s.id| > |a|;
    }
  }

  lemma TitleOfDashedId(s: Stand, a: string, b: string, rest: string)
    requires s.id == a + [EmDash] + b && rest == b + " " + [EmDash] + " " + s.name
    ensures Title(s) == a + [EmDash] + rest
  {
  }

  /** An id with a leading space loses it: the button of stand " A1"-like
      ids toggles the unpadded id instead. */
  lemma PaddedIdMisread(favorites: set<string>, s: Stand, a: string)
    requires s.id == " " + a
    requires a != "" && EmDash !in a && Text.IsTrimmed(a)
    ensures IdFromTitle(Title(s)) == a != s.id
    ensures ToggleFromTitle(favorites, Title(s)) == Flip(favorites, a)
  {
    var padded := " " + a + " ";
    assert Text.BeforeFirst(Title(s), EmDash) == padded by {
      var rest := " " + s.name;
      assert Title(s) == padded + [EmDash] + rest;
      assert EmDash !in padded by {
        assert forall i :: 0 <= i < |padded| ==> padded[i] == ' ' || padded[i] in a;
      }
      Text.BeforeFirstAt(padded, EmDash, rest);
    }
    assert Text.Trim(padded) == a by {
      assert Text.AllSpace(" ") by {
        assert Text.IsSpace(' ');
      }
      Text.TrimPadded(" ", a, " ");
    }
    assert |s.id| > |a|;
  }

  /** The intended behaviour: the button toggles the id of the stand the
      modal was opened for, whatever characters that id holds. */
  function ToggleStand(favorites: set<string>, s: Stand): (r: set<string>)
    requires s.id != ""
    ensures s.id in r <==> s.id !in favorites
    ensures forall x :: x != s.id ==> (x in r <==> x in favorites)
  {
    Flip(favorites, s.id)
  }

  /** Toggling the same stand twice restores the favourites, and for ids the
      title parse handles the two toggles agree. */
  lemma ToggleStandInvolution(favorites: set<string>, s: Stand)
    requires s.id != ""
    ensures ToggleStand(ToggleStand(favorites, s), s) == favorites
    ensures EmDash !in s.id && Text.IsTrimmed(s.id) ==>
      ToggleFromTitle(favorites, Title(s)) == ToggleStand(favorites, s)
  {
    if EmDash !in s.id && Text.IsTrimmed(s.id) {
      ToggleFlipsStandId(favorites, s);
    }
  }
}

=== FILE: filters.dfy ===
/** The list filter (`applyFilters`) and the UI rules that rewrite its
    inputs: the quick category chips and the category selector.

    The text normaliser `normalizeText` (lower-casing plus removal of
    diacritics after NFD decomposition) is Unicode machinery; it is a
    parameter `norm` here. Lemmas that need a fact about it state that fact
    as a precondition, and each such fact holds of `normalizeText`. */
module Filters {
  import opened Stands
  import Seqs
  import Text

  /** The search box text and the category selector value. */
  datatype FilterState = FilterState(query: string, category: string)

  const AllCategories := "all"
  const FavPrefix := "fav:"
  /** The label of the first quick chip. */
  const FavoritesChip := "Favoritos"

  /** The normalised query `normalizeText(els.q.value.trim())`. */
  function Needle(st: FilterState, norm: string -> string): string {
    norm(Text.Trim(st.query))
  }

  /** The text a query is searched in: `${id} ${name} ${category} ${desc}`,
      normalised. */
  function Haystack(s: Stand, norm: string -> string): string {
    norm(s.id + " " + s.name + " " + s.category + " " + s.desc)
  }

  predicate CategoryMatch(s: Stand, category: string) {
    category == AllCategories || s.category == category
  }

  /** The callback given to `stands.filter` in `applyFilters`. */
  predicate Shown(s: Stand, favorites: set<string>, st: FilterState, norm: string -> string) {
    var q := Needle(st, norm);
    var matchCat := CategoryMatch(s, st.category);
    if q == "" then matchCat
    else if Text.StartsWith(q, FavPrefix) then matchCat && s.id in favorites
    else matchCat && Text.Includes(Haystack(s, norm), q)
  }

  /** `applyFilters`: the stands passing the filter, in store order. */
  function ApplyFilters(stands: seq<Stand>, favorites: set<string>, st: FilterState,
                        norm: string -> string): (shown: seq<Stand>)
    ensures Seqs.IsSubseq(shown, stands)
    ensures forall s :: s in shown ==> Shown(s, favorites, st, norm)
    ensures forall i :: 0 <= i < |stands| && Shown(stands[i], favorites, st, norm) ==> stands[i] in shown
    ensures forall s :: multiset(shown)[s] == if Shown(s, favorites, st, norm) then multiset(stands)[s] else 0
  {
    var p := (s: Stand) => Shown(s, favorites, st, norm);
    Seqs.FilterIsSubseq(stands, p);
    Seqs.FilterKeepsAll(stands, p);
    Seqs.FilterMultiset(stands, p);
    var r := Seqs.Filter(stands, p);
    assert forall s :: s in r ==> p(s);
    r
  }

  /** The filter is any predicate that agrees with the callback on the
      stands at hand. */
  lemma FilterBy(stands: seq<Stand>, favorites: set<string>, st: FilterState,
                 norm: string -> string, q: Stand -> bool)
    requires forall i :: 0 <= i < |stands| ==> Shown(stands[i], favorites, st, norm) == q(stands[i])
    ensures ApplyFilters(stands, favorites, st, norm) == Seqs.Filter(stands, q)
  {
    Seqs.FilterCongruent(stands, (s: Stand) => Shown(s, favorites, st, norm), q);
  }

  /** With category "all" and a blank query, everything is listed. */
  lemma NoFilterShowsAll(stands: seq<Stand>, favorites: set<string>, st: FilterState,
                         norm: string -> string)
    requires norm("") == ""
    requires st.category == AllCategories && Text.Trim(st.query) == ""
    ensures ApplyFilters(stands, favorites, st, norm) == stands
  {
    Seqs.FilterAllPass(stands, (s: Stand) => Shown(s, favorites, st, norm));
  }

  /** A chosen category is matched exactly (case-sensitively, without
      normalisation), whatever the query. */
  lemma CategoryIsExact(stands: seq<Stand>, favorites: set<string>, st: FilterState,
                        norm: string -> string)
    requires st.category != AllCategories
    ensures forall s :: s in ApplyFilters(stands, favorites, st, norm) ==> s.category == st.category
  {
  }

  /** A `fav:` query lists exactly the favourites of the chosen category;
      whatever follows the prefix is ignored. */
  lemma FavQueryShowsFavorites(stands: seq<Stand>, favorites: set<string>, st: FilterState,
                               norm: string -> string)
    requires Text.StartsWith(Needle(st, norm), FavPrefix)
    ensures ApplyFilters(stands, favorites, st, norm)
            == Seqs.Filter(stands, (s: Stand) => CategoryMatch(s, st.category) && s.id in favorites)
  {
    var q := (s: Stand) => CategoryMatch(s, st.category) && s.id in favorites;
    forall i | 0 <= i < |stands|
      ensures Shown(stands[i], favorites, st, norm) == q(stands[i])
    {
    }
    FilterBy(stands, favorites, st, norm, q);
  }

  /** Two `fav:` queries with the same category give the same list. */
  lemma FavSuffixIgnored(stands: seq<Stand>, favorites: set<string>, st1: FilterState,
                         st2: FilterState, norm: string -> string)
    requires Text.StartsWith(Needle(st1, norm), FavPrefix) && Text.StartsWith(Needle(st2, norm), FavPrefix)
    requires st1.category == st2.category
    ensures ApplyFilters(stands, favorites, st1, norm) == ApplyFilters(stands, favorites, st2, norm)
  {
    FavQueryShowsFavorites(stands, favorites, st1, norm);
    FavQueryShowsFavorites(stands, favorites, st2, norm);
  }

  /** Any other non-empty query is a substring search in the normalised
      `id name category desc` text of the stands of the chosen category. */
  lemma TextQueryIsSubstring(stands: seq<Stand>, favorites: set<string>, st: FilterState,
                             norm: string -> string)
    requires Needle(st, norm) != "" && !Text.StartsWith(Needle(st, norm), FavPrefix)
    ensures ApplyFilters(stands, favorites, st, norm)
            == Seqs.Filter(stands, (s: Stand) =>
                 CategoryMatch(s, st.category) && Text.Includes(Haystack(s, norm), Needle(st, norm)))
  {
    var q := (s: Stand) => CategoryMatch(s, st.category) && Text.Includes(Haystack(s, norm), Needle(st, norm));
    forall i | 0 <= i < |stands|
      ensures Shown(stands[i], favorites, st, norm) == q(stands[i])
    {
    }
    FilterBy(stands, favorites, st, norm, q);
  }

  /** A click on a quick chip: "Favoritos" selects all categories and types
      `fav:`; any other chip clears the query and selects its category. */
  function QuickChip(chip: string): (st: FilterState)
    ensures chip == FavoritesChip ==> st.query == FavPrefix && st.category == AllCategories
    ensures chip != FavoritesChip ==> st.query == "" && st.category == chip
  {
    if chip == FavoritesChip then FilterState(FavPrefix, AllCategories) else FilterState("", chip)
  }

  /** The normalised query a quick chip leaves behind. */
  lemma ChipNeedle(chip: string, norm: string -> string)
    ensures Needle(QuickChip(chip), norm) == norm(if chip == FavoritesChip then FavPrefix else "")
  {
    if chip == FavoritesChip {
      Text.TrimOfTrimmed(FavPrefix);
    } else {
      Text.TrimOfTrimmed("");
    }
  }

  /** The "Favoritos" chip lists every favourite, in store order. */
  lemma FavoritesChipShowsFavorites(stands: seq<Stand>, favorites: set<string>, norm: string -> string)
    requires norm(FavPrefix) == FavPrefix
    ensures ApplyFilters(stands, favorites, QuickChip(FavoritesChip), norm)
            == Seqs.Filter(stands, (s: Stand) => s.id in favorites)
  {
    var st := QuickChip(FavoritesChip);
    ChipNeedle(FavoritesChip, norm);
    assert Text.StartsWith(Needle(st, norm), FavPrefix);
    var q := (s: Stand) => s.id in favorites;
    forall i | 0 <= i < |stands|
      ensures Shown(stands[i], favorites, st, norm) == q(stands[i])
    {
    }
    FilterBy(stands, favorites, st, norm, q);
  }

  /** A category chip lists exactly the stands of that category. A category
      literally named "Favoritos" or "all" is the exception: its chip is
      read as the favourites chip or as "every category". */
  lemma CategoryChipShowsCategory(stands: seq<Stand>, favorites: set<string>, chip: string,
                                  norm: string -> string)
    requires norm("") == ""
    requires chip != FavoritesChip && chip != AllCategories
    ensures ApplyFilters(stands, favorites, QuickChip(chip), norm)
            == Seqs.Filter(stands, (s: Stand) => s.category == chip)
  {
    var st := QuickChip(chip);
    ChipNeedle(chip, norm);
    assert Needle(st, norm) == "" && st.category == chip;
    var q := (s: Stand) => s.category == chip;
    forall i | 0 <= i < |stands|
      ensures Shown(stands[i], favorites, st, norm) == q(stands[i])
    {
    }
    FilterBy(stands, favorites, st, norm, q);
  }

  /** The category selector's change handler: a raw query that starts with
      `fav:` after trimming (case-sensitively) is cleared, any other query is
      kept, and the new category is taken. */
  function ChangeCategory(st: FilterState, category: string): (r: FilterState)
    ensures r.category == category
    ensures !Text.StartsWith(Text.Trim(r.query), FavPrefix)
    ensures Text.StartsWith(Text.Trim(st.query), FavPrefix) ==> r.query == ""
    ensures !Text.StartsWith(Text.Trim(st.query), FavPrefix) ==> r.query == st.query
  {
    if Text.StartsWith(Text.Trim(st.query), FavPrefix) then
      Text.TrimOfTrimmed("");
      FilterState("", category)
    else
      FilterState(st.query, category)
  }

  /** The clearing is case-sensitive while the filter lower-cases: an
      upper-case `FAV:` query survives a category change and, under a
      normaliser that lower-cases it, still filters by favourites. */
  lemma UpperCaseFavSurvivesCategoryChange(st: FilterState, category: string, norm: string -> string)
    requires st.query == "FAV:"
    requires norm("FAV:") == FavPrefix
    ensures ChangeCategory(st, category).query == "FAV:"
    ensures Text.StartsWith(Needle(ChangeCategory(st, category), norm), FavPrefix)
  {
    assert Text.Trim(st.query) == "FAV:" by {
      Text.TrimOfTrimmed("FAV:");
    }
    assert !Text.StartsWith(Text.Trim(st.query), FavPrefix) by {
      Text.FirstCharDiffers("FAV:", FavPrefix);
    }
    assert Text.StartsWith(Needle(st, norm), FavPrefix) by {
      Text.StartsWithSelf(FavPrefix);
    }
    KeptQueryKeepsFilter(st, category, norm);
  }

  /** A query the category change keeps filters the same way afterwards. */
  lemma KeptQueryKeepsFilter(st: FilterState, category: string, norm: string -> string)
    requires !Text.StartsWith(Text.Trim(st.query), FavPrefix)
    ensures ChangeCategory(st, category).query == st.query
    ensures Needle(ChangeCategory(st, category), norm) == Needle(st, norm)
  {
  }
}

=== FILE: geometry.dfy ===
/** Plan coordinates. The floor plan is shown in Leaflet's `CRS.Simple`,
    where a point's latitude is its image y and its longitude its image x:
    no axis is flipped. A stand's bounds `[x1, y1, x2, y2]` are two opposite
    corners in any order. Numbers are reals; NaN is not modelled. */
module Geometry {

  /** The virtual size of the plan (`MAP_W`, `MAP_H`). */
  const MapWidth: real := 2000.0
  const MapHeight: real := 1200.0

  datatype LatLng = LatLng(lat: real, lng: real)

  /** A Leaflet `LatLngBounds`: south-west and north-east corners. */
  datatype LatLngBounds = LatLngBounds(southWest: LatLng, northEast: LatLng)

  function Min(a: real, b: real): real { if a <= b then a else b }
  function Max(a: real, b: real): real { if a <= b then b else a }

  /** `clamp(n, a, b)` = `Math.max(a, Math.min(b, n))`. */
  function Clamp(n: real, a: real, b: real): (r: real)
    ensures a <= b ==> a <= r <= b
    ensures a <= n <= b ==> r == n
    ensures n < a ==> r == a
    ensures a <= b < n ==> r == b
    ensures b < a ==> r == a
  {
    Max(a, Min(b, n))
  }

  predicate IsNormalized(r: LatLngBounds) {
    r.southWest.lat <= r.northEast.lat && r.southWest.lng <= r.northEast.lng
  }

  predicate Contains(r: LatLngBounds, p: LatLng) {
    r.southWest.lat <= p.lat <= r.northEast.lat && r.southWest.lng <= p.lng <= r.northEast.lng
  }

  /** The plan point of image coordinates (x, y). */
  function PlanPoint(x: real, y: real): (p: LatLng)
    ensures p.lat == y && p.lng == x
  {
    LatLng(y, x)
  }

  /** `boundsToLatLngBounds([x1, y1, x2, y2])`. */
  function BoundsToLatLngBounds(b: seq<real>): (r: LatLngBounds)
    requires |b| == 4
    ensures IsNormalized(r)
    ensures Contains(r, PlanPoint(b[0], b[1])) && Contains(r, PlanPoint(b[2], b[3]))
    ensures r.southWest.lat in {b[1], b[3]} && r.northEast.lat in {b[1], b[3]}
    ensures r.southWest.lng in {b[0], b[2]} && r.northEast.lng in {b[0], b[2]}
  {
    var x1, y1, x2, y2 := b[0], b[1], b[2], b[3];
    LatLngBounds(LatLng(Min(y1, y2), Min(x1, x2)), LatLng(Max(y1, y2), Max(x1, x2)))
  }

  /** The rectangle is the smallest one holding both corners: any rectangle
      containing the two corner points contains it. */
  lemma BoundsAreTightest(b: seq<real>, other: LatLngBounds)
    requires |b| == 4
    requires Contains(other, PlanPoint(b[0], b[1])) && Contains(other, PlanPoint(b[2], b[3]))
    ensures Contains(other, BoundsToLatLngBounds(b).southWest)
    ensures Contains(other, BoundsToLatLngBounds(b).northEast)
  {
  }

  /** Which corner pair is given, and in which order, does not matter. */
  lemma CornerOrderIrrelevant(x1: real, y1: real, x2: real, y2: real)
    ensures BoundsToLatLngBounds([x2, y2, x1, y1]) == BoundsToLatLngBounds([x1, y1, x2, y2])
    ensures BoundsToLatLngBounds([x2, y1, x1, y2]) == BoundsToLatLngBounds([x1, y1, x2, y2])
    ensures BoundsToLatLngBounds([x1, y2, x2, y1]) == BoundsToLatLngBounds([x1, y1, x2, y2])
  {
  }

  /** Already ordered bounds map straight through: y becomes latitude and x
      longitude, with no inversion of the vertical axis. */
  lemma OrderedBoundsUnchanged(x1: real, y1: real, x2: real, y2: real)
    requires x1 <= x2 && y1 <= y2
    ensures BoundsToLatLngBounds([x1, y1, x2, y2]) == LatLngBounds(PlanPoint(x1, y1), PlanPoint(x2, y2))
  {
  }

  /** The image overlay's bounds `[[0, 0], [MAP_H, MAP_W]]` are the stand
      rectangle of the whole plan `[0, 0, MAP_W, MAP_H]`. */
  lemma WholePlanRectangle()
    ensures BoundsToLatLngBounds([0.0, 0.0, MapWidth, MapHeight])
            == LatLngBounds(LatLng(0.0, 0.0), LatLng(MapHeight, MapWidth))
  {
  }
}

=== FILE: options.dfy ===
/** Optional values and results with an error, as used throughout the model.
    `None` stands for JavaScript's `null`/`undefined`. */
module Options {

  datatype Option<T> = None | Some(value: T) {

    /** The `??` operator: the carried value, or `fallback` when absent. */
    function GetOr(fallback: T): T {
      match this
      case Some(v) => v
      case None => fallback
    }
  }

  datatype Result<T, E> = Success(value: T) | Failure(error: E)
}

=== FILE: seqs.dfy ===
/** Sequence vocabulary shared by the region engine: order-preserving
    sub-lists, `Array.prototype.filter`, `Array.prototype.map`, and the
    first-occurrence de-duplication performed by `[...new Set(arr)]`. */
module Seqs {

  /** `sub` is obtained from `xs` by deleting elements, the rest kept in order. */
  predicate IsSubseq<T(==)>(sub: seq<T>, xs: seq<T>)
    decreases |xs|
  {
    |sub| == 0 ||
    (|xs| > 0 && ((sub[0] == xs[0] && IsSubseq(sub[1..], xs[1..])) || IsSubseq(sub, xs[1..])))
  }

  /** `xs.map(f)`. */
  function Map<A, B>(xs: seq<A>, f: A -> B): (ys: seq<B>)
    ensures |ys| == |xs|
    ensures forall i :: 0 <= i < |xs| ==> ys[i] == f(xs[i])
  {
    seq(|xs|, i requires 0 <= i < |xs| => f(xs[i]))
  }

  /** `xs.filter(p)`: the elements satisfying `p`, in their original order. */
  function Filter<T>(xs: seq<T>, p: T -> bool): (r: seq<T>)
    ensures |r| <= |xs|
    ensures forall x :: x in r ==> x in xs && p(x)
  {
    if |xs| == 0 then []
    else if p(xs[0]) then [xs[0]] + Filter(xs[1..], p)
    else Filter(xs[1..], p)
  }

  lemma {:induction false} FilterIsSubseq<T>(xs: seq<T>, p: T -> bool)
    ensures IsSubseq(Filter(xs, p), xs)
  {
    if |xs| > 0 {
      FilterIsSubseq(xs[1..], p);
      if p(xs[0]) {
        var r := Filter(xs, p);
        assert r[0] == xs[0] && r[1..] == Filter(xs[1..], p);
      }
    }
  }

  /** Nothing that satisfies `p` is dropped. */
  lemma {:induction false} FilterKeepsAll<T>(xs: seq<T>, p: T -> bool)
    ensures forall i :: 0 <= i < |xs| && p(xs[i]) ==> xs[i] in Filter(xs, p)
  {
    if |xs| > 0 {
      FilterKeepsAll(xs[1..], p);
      forall i | 0 <= i < |xs| && p(xs[i])
        ensures xs[i] in Filter(xs, p)
      {
        if i > 0 {
          assert xs[i] == xs[1..][i - 1];
        }
      }
    }
  }

  /** The exact contents: every value satisfying `p` keeps all its copies,
      every other value loses all of them. */
  lemma {:induction false} FilterMultiset<T>(xs: seq<T>, p: T -> bool)
    ensures forall x :: multiset(Filter(xs, p))[x] == if p(x) then multiset(xs)[x] else 0
  {
    if |xs| > 0 {
      FilterMultiset(xs[1..], p);
      assert xs == [xs[0]] + xs[1..];
      assert multiset(xs) == multiset{xs[0]} + multiset(xs[1..]);
    }
  }

  /** A filter that every element passes returns the list unchanged. */
  lemma {:induction false} FilterAllPass<T>(xs: seq<T>, p: T -> bool)
    requires forall i :: 0 <= i < |xs| ==> p(xs[i])
    ensures Filter(xs, p) == xs
  {
    if |xs| > 0 {
      FilterAllPass(xs[1..], p);
      assert xs == [xs[0]] + xs[1..];
    }
  }

  /** Two predicates that agree on the list select the same sub-list. */
  lemma {:induction false} FilterCongruent<T>(xs: seq<T>, p: T -> bool, q: T -> bool)
    requires forall i :: 0 <= i < |xs| ==> p(xs[i]) == q(xs[i])
    ensures Filter(xs, p) == Filter(xs, q)
  {
    if |xs| > 0 {
      FilterCongruent(xs[1..], p, q);
    }
  }

  predicate NoDups<T(==)>(xs: seq<T>) {
    forall i, j :: 0 <= i < j < |xs| ==> xs[i] != xs[j]
  }

  /** The position of the first occurrence of `x` in `xs`. */
  function FirstIndex<T(==)>(xs: seq<T>, x: T): (k: nat)
    requires x in xs
    ensures k < |xs| && xs[k] == x && x !in xs[..k]
  {
    if xs[0] == x then 0 else 1 + FirstIndex(xs[1..], x)
  }

  lemma FirstIndexUnique<T>(xs: seq<T>, x: T, k: nat)
    requires k < |xs| && xs[k] == x && x !in xs[..k]
    ensures FirstIndex(xs, x) == k
  {
  }

  /** An element of a prefix has its first occurrence inside that prefix. */
  lemma FirstIndexInPrefix<T>(xs: seq<T>, n: nat, x: T)
    requires n <= |xs| && x in xs[..n]
    ensures FirstIndex(xs, x) == FirstIndex(xs[..n], x)
  {
    var k := FirstIndex(xs[..n], x);
    assert xs[..n][..k] == xs[..k];
    FirstIndexUnique(xs, x, k);
  }

  /** `r` lists every value of `xs` exactly once, in first-occurrence order. */
  ghost predicate IsDedupOf<T>(r: seq<T>, xs: seq<T>) {
    && NoDups(r)
    && (forall i :: 0 <= i < |r| ==> r[i] in xs)
    && (forall i :: 0 <= i < |xs| ==> xs[i] in r)
    && (forall i, j :: 0 <= i < j < |r| ==> FirstIndex(xs, r[i]) < FirstIndex(xs, r[j]))
  }

  /** `[...new Set(xs)]`: a JavaScript `Set` iterates in insertion order, and
      re-inserting a present value does not move it, so the result lists each
      distinct value once, at the place of its first occurrence. */
  function Uniq<T(==)>(xs: seq<T>): (r: seq<T>)
    ensures NoDups(r)
    ensures forall i :: 0 <= i < |r| ==> r[i] in xs
    ensures forall i :: 0 <= i < |xs| ==> xs[i] in r
    ensures forall i, j :: 0 <= i < j < |r| ==> FirstIndex(xs, r[i]) < FirstIndex(xs, r[j])
    decreases |xs|
  {
    if |xs| == 0 then []
    else
      var n := |xs| - 1;
      var rest := Uniq(xs[..n]);
      UniqStep(xs, rest);
      if xs[n] in xs[..n] then rest else rest + [xs[n]]
  }

  /** One insertion step of the `Set`: the de-duplication of all but the last
      element, extended by the last element when it is new. */
  lemma UniqStep<T>(xs: seq<T>, rest: seq<T>)
    requires |xs| > 0 && IsDedupOf(rest, xs[..|xs| - 1])
    ensures IsDedupOf(if xs[|xs| - 1] in xs[..|xs| - 1] then rest else rest + [xs[|xs| - 1]], xs)
  {
    var n := |xs| - 1;
    forall i | 0 <= i < |rest|
      ensures FirstIndex(xs, rest[i]) == FirstIndex(xs[..n], rest[i]) < n
    {
      FirstIndexInPrefix(xs, n, rest[i]);
    }
    forall i | 0 <= i < |xs|
      ensures xs[i] in rest + [xs[n]]
    {
      if i < n {
        assert xs[i] == xs[..n][i];
      }
    }
    if xs[n] in xs[..n] {
      forall i | 0 <= i < |xs|
        ensures xs[i] in rest
      {
        if i < n {
          assert xs[i] == xs[..n][i];
        }
      }
    } else {
      FirstIndexUnique(xs, xs[n], n);
      var r := rest + [xs[n]];
      assert forall i :: 0 <= i < |rest| ==> r[i] == rest[i];
    }
  }

  /** A list without duplicates is its own de-duplication. */
  lemma {:induction false} UniqOfDistinct<T>(xs: seq<T>)
    requires NoDups(xs)
    ensures Uniq(xs) == xs
  {
    if |xs| > 0 {
      var n := |xs| - 1;
      DistinctPrefix(xs, n);
      UniqOfDistinct(xs[..n]);
      assert Uniq(xs) == Uniq(xs[..n]) + [xs[n]];
      assert xs[..n] + [xs[n]] == xs;
    }
  }

  /** Dropping the last element of a duplicate-free list keeps it
      duplicate-free, and that element is not among the others. */
  lemma DistinctPrefix<T>(xs: seq<T>, n: nat)
    requires NoDups(xs) && n == |xs| - 1
    ensures NoDups(xs[..n]) && xs[n] !in xs[..n]
  {
    assert forall i :: 0 <= i < n ==> xs[..n][i] == xs[i];
  }

  /** De-duplicating twice is the same as once. */
  lemma UniqIdempotent<T>(xs: seq<T>)
    ensures Uniq(Uniq(xs)) == Uniq(xs)
  {
    UniqOfDistinct(Uniq(xs));
  }
}

=== FILE: stands.dfy ===
/** Stand records and their ingestion (`loadStands`). A raw record is one
    element of the fetched JSON array; each field is either absent (`null` or
    `undefined`, written `None`) or present, given by its `String(...)` image.
    Bounds are absent when the field is not an array, otherwise the list of
    its entries after `Number(...)`. */
module Stands {
  import opened Options
  import Seqs

  datatype RawStand = RawStand(
    id: Option<string>,
    name: Option<string>,
    category: Option<string>,
    desc: Option<string>,
    note: Option<string>,
    token: Option<string>,
    bounds: Option<seq<real>>)

  /** A stand as `loadStands` builds it. `bounds` is `None` when the raw
      field was not an array (the source's `null`). */
  datatype Stand = Stand(
    id: string,
    name: string,
    category: string,
    desc: string,
    note: string,
    token: string,
    bounds: Option<seq<real>>)

  const DefaultName := "Stand"
  const DefaultCategory := "General"
  const DefaultToken := "demo"

  /** The filter of `loadStands`: a non-empty id and an array of exactly
      four bounds. The entries themselves are not checked. */
  predicate Kept(s: Stand) {
    s.id != "" && s.bounds.Some? && |s.bounds.value| == 4
  }

  /** The same condition read off the raw record. */
  predicate WellFormed(raw: RawStand) {
    raw.id.Some? && raw.id.value != "" && raw.bounds.Some? && |raw.bounds.value| == 4
  }

  /** The `data.map(...)` step: defaults for missing fields. */
  function ToStand(raw: RawStand): Stand {
    Stand(
      id := raw.id.GetOr(""),
      name := raw.name.GetOr(raw.id.GetOr(DefaultName)),
      category := raw.category.GetOr(DefaultCategory),
      desc := raw.desc.GetOr(""),
      note := raw.note.GetOr(""),
      token := raw.token.GetOr(raw.id.GetOr(DefaultToken)),
      bounds := raw.bounds)
  }

  /** A record survives the filter exactly when it is well-formed, and then
      its defaults come from its id: the "Stand" and "demo" fallbacks only
      ever appear on records that are dropped. */
  lemma KeptRecordDefaults(raw: RawStand)
    ensures Kept(ToStand(raw)) <==> WellFormed(raw)
    ensures Kept(ToStand(raw)) ==>
      var s := ToStand(raw);
      && raw.id == Some(s.id)
      && s.bounds == raw.bounds
      && (raw.name.None? ==> s.name == s.id)
      && (raw.token.None? ==> s.token == s.id)
      && (raw.category.None? ==> s.category == DefaultCategory)
      && (raw.desc.None? ==> s.desc == "")
      && (raw.note.None? ==> s.note == "")
      && (raw.name.Some? ==> s.name == raw.name.value)
      && (raw.category.Some? ==> s.category == raw.category.value)
      && (raw.desc.Some? ==> s.desc == raw.desc.value)
      && (raw.note.Some? ==> s.note == raw.note.value)
      && (raw.token.Some? ==> s.token == raw.token.value)
  {
  }

  /** `data.map(...).filter(...)`: the well-formed records, converted, in
      input order; nothing else, and every copy of each. */
  function Ingest(data: seq<RawStand>): (stands: seq<Stand>)
    ensures forall s :: s in stands ==> Kept(s)
    ensures Seqs.IsSubseq(stands, Seqs.Map(data, ToStand))
    ensures forall i :: 0 <= i < |data| && WellFormed(data[i]) ==> ToStand(data[i]) in stands
    ensures forall s :: multiset(stands)[s] == if Kept(s) then multiset(Seqs.Map(data, ToStand))[s] else 0
  {
    var mapped := Seqs.Map(data, ToStand);
    Seqs.FilterIsSubseq(mapped, Kept);
    Seqs.FilterKeepsAll(mapped, Kept);
    Seqs.FilterMultiset(mapped, Kept);
    Seqs.Filter(mapped, Kept)
  }

  /** When every record is well-formed, nothing is dropped. */
  lemma {:induction false} IngestAllWellFormed(data: seq<RawStand>)
    requires forall i :: 0 <= i < |data| ==> WellFormed(data[i])
    ensures |Ingest(data)| == |data|
    ensures forall i :: 0 <= i < |data| ==> Ingest(data)[i] == ToStand(data[i])
  {
    Seqs.FilterAllPass(Seqs.Map(data, ToStand), Kept);
  }

  /** The fetch outcome `loadStands` consumes: the promise of `fetch`
      rejects (a network failure, no response at all) or resolves to a
      response whose body parses as a JSON array, as other JSON, or not at
      all. */
  datatype Body = JsonArray(records: seq<RawStand>) | JsonOther | NotJson
  datatype Response = Response(ok: bool, status: int, body: Body)
  datatype Fetched = Rejected | Resolved(response: Response)

  datatype LoadError = NetworkError | HttpStatus(status: int) | BadJson | NotAnArray

  /** `loadStands`: a rejected fetch, a failed response, a body that is not
      JSON, or JSON that is not an array raise an error; otherwise the array
      is ingested. */
  function LoadStands(fetched: Fetched): (r: Result<seq<Stand>, LoadError>)
    ensures fetched.Rejected? ==> r == Failure(NetworkError)
    ensures fetched.Resolved? && !fetched.response.ok ==> r == Failure(HttpStatus(fetched.response.status))
    ensures fetched.Resolved? && fetched.response.ok && fetched.response.body.NotJson? ==> r == Failure(BadJson)
    ensures fetched.Resolved? && fetched.response.ok && fetched.response.body.JsonOther? ==> r == Failure(NotAnArray)
    ensures r.Success? <==> fetched.Resolved? && fetched.response.ok && fetched.response.body.JsonArray?
    ensures r.Success? ==> r.value == Ingest(fetched.response.body.records)
  {
    match fetched
    case Rejected => Failure(NetworkError)
    case Resolved(res) =>
      if !res.ok then Failure(HttpStatus(res.status))
      else match res.body
        case NotJson => Failure(BadJson)
        case JsonOther => Failure(NotAnArray)
        case JsonArray(records) => Success(Ingest(records))
  }

  /** `init`: the store starts empty and only a successful load fills it; a
      load error, raised before the store is assigned, is caught and
      reported, leaving the store empty. */
  function StoreAfterInit(fetched: Fetched): (stands: seq<Stand>)
    ensures LoadStands(fetched).Failure? ==> stands == []
    ensures fetched.Resolved? && fetched.response.ok && fetched.response.body.JsonArray? ==>
      stands == Ingest(fetched.response.body.records)
    ensures forall s :: s in stands ==> Kept(s)
  {
    match LoadStands(fetched)
    case Success(loaded) => loaded
    case Failure(_) => []
  }

  /** `uniq(stands.map(s => s.category))`: the categories in order of first
      appearance, each once. The presentation sort (`localeCompare`) is
      not modelled. */
  function Categories(stands: seq<Stand>): (cats: seq<string>)
    ensures Seqs.NoDups(cats)
    ensures forall c :: c in cats <==> exists s :: s in stands && s.category == c
  {
    var all := Seqs.Map(stands, (s: Stand) => s.category);
    var cats := Seqs.Uniq(all);
    assert forall s :: s in stands ==> s.category in all;
    cats
  }
}

=== FILE: style.dfy ===
/** The stand rectangle style policy of `styleStandLayers`. The outline and
    fill colour say whether the stand is a favourite; the opacities say
    whether it passes the current filter. There is no "selected" style. */
module Style {
  import opened Stands
  import Filters

  datatype Style = Style(opacity: real, fillOpacity: real, color: string, fillColor: string)

  const FavoriteColor := "#43f58a"
  const DefaultColor := "#5ee7ff"

  /** The style handed to `layer.setStyle` for one stand. */
  function StyleFor(visible: bool, favorite: bool): (st: Style)
    ensures st.color == st.fillColor
    ensures st.color == (if favorite then FavoriteColor else DefaultColor)
    ensures st.opacity == (if visible then 1.0 else 0.15)
    ensures st.fillOpacity == (if visible then 0.12 else 0.02)
  {
    var c := if favorite then FavoriteColor else DefaultColor;
    Style(if visible then 1.0 else 0.15, if visible then 0.12 else 0.02, c, c)
  }

  /** Colour ignores visibility, so filtering never changes it. */
  lemma ColorIgnoresVisibility(favorite: bool, v1: bool, v2: bool)
    ensures StyleFor(v1, favorite).color == StyleFor(v2, favorite).color
    ensures StyleFor(v1, favorite).fillColor == StyleFor(v2, favorite).fillColor
  {
  }

  /** Opacity ignores favourite status, so toggling a favourite never
      changes it. */
  lemma OpacityIgnoresFavorite(visible: bool, f1: bool, f2: bool)
    ensures StyleFor(visible, f1).opacity == StyleFor(visible, f2).opacity
    ensures StyleFor(visible, f1).fillOpacity == StyleFor(visible, f2).fillOpacity
  {
  }

  /** Favourites and other stands are told apart by colour, and filtered-out
      stands are fainter than shown ones, in outline and in fill. */
  lemma StylesDistinguishFlags(visible: bool, favorite: bool)
    ensures StyleFor(visible, true).color != StyleFor(visible, false).color
    ensures StyleFor(false, favorite).opacity < StyleFor(true, favorite).opacity
    ensures StyleFor(false, favorite).fillOpacity < StyleFor(true, favorite).fillOpacity
  {
  }

  /** `filtered.some(x => x.id === id)`: visibility is decided by id. */
  predicate IdShown(filtered: seq<Stand>, id: string) {
    exists x :: x in filtered && x.id == id
  }

  /** `styleStandLayers`: the style of each registered layer, keyed by
      stand id. `drawStands` registers one layer per id (the last stand
      drawn with that id), and every stand with that id writes the same
      style to it. */
  function StyleStandLayers(stands: seq<Stand>, filtered: seq<Stand>, favorites: set<string>): (layers: map<string, Style>)
    ensures layers.Keys == set s | s in stands :: s.id
    ensures forall s :: s in stands ==>
      && layers[s.id] == StyleFor(IdShown(filtered, s.id), s.id in favorites)
      && layers[s.id].color == (if s.id in favorites then FavoriteColor else DefaultColor)
      && layers[s.id].opacity == (if IdShown(filtered, s.id) then 1.0 else 0.15)
  {
    if |stands| == 0 then map[]
    else
      var s := stands[|stands| - 1];
      var earlier := StyleStandLayers(stands[..|stands| - 1], filtered, favorites);
      var layers := earlier[s.id := StyleFor(IdShown(filtered, s.id), s.id in favorites)];
      LastWriteStep(stands, s, earlier, layers, filtered, favorites);
      layers
  }

  /** Writing the last stand's style on top of the styles of the others
      keeps every stand's entry right: a stand sharing the last one's id
      gets the same style. */
  lemma LastWriteStep(stands: seq<Stand>, s: Stand, earlier: map<string, Style>, layers: map<string, Style>,
                      filtered: seq<Stand>, favorites: set<string>)
    requires |stands| > 0 && s == stands[|stands| - 1]
    requires earlier.Keys == set t | t in stands[..|stands| - 1] :: t.id
    requires forall t :: t in stands[..|stands| - 1] ==>
      earlier[t.id] == StyleFor(IdShown(filtered, t.id), t.id in favorites)
    requires layers == earlier[s.id := StyleFor(IdShown(filtered, s.id), s.id in favorites)]
    ensures layers.Keys == set t | t in stands :: t.id
    ensures forall t :: t in stands ==> layers[t.id] == StyleFor(IdShown(filtered, t.id), t.id in favorites)
  {
    var init := stands[..|stands| - 1];
    assert stands == init + [s];
    assert forall t :: t in stands <==> t in init || t == s;
    assert layers.Keys == earlier.Keys + {s.id};
    forall t | t in stands
      ensures layers[t.id] == StyleFor(IdShown(filtered, t.id), t.id in favorites)
    {
      if t.id != s.id {
        assert t in init;
      }
    }
  }

  /** After `applyFilters`, a stand's layer is fully opaque exactly when some
      stand with its id passes the filter. */
  lemma OpacityFollowsFilter(stands: seq<Stand>, favorites: set<string>, st: Filters.FilterState,
                             norm: string -> string, s: Stand)
    requires s in stands
    ensures var layers := StyleStandLayers(stands, Filters.ApplyFilters(stands, favorites, st, norm), favorites);
            layers[s.id].opacity == 1.0 <==>
            exists x :: x in stands && x.id == s.id && Filters.Shown(x, favorites, st, norm)
  {
    var shown := Filters.ApplyFilters(stands, favorites, st, norm);
    if x :| x in stands && x.id == s.id && Filters.Shown(x, favorites, st, norm) {
      var i :| 0 <= i < |stands| && stands[i] == x;
      assert x in shown;
      assert IdShown(shown, s.id);
    }
  }
}

=== FILE: text.dfy ===
/** The string operations of app.js: `String.prototype.trim`, `startsWith`,
    `includes`, `split(sep)[0]`, and `escapeHtml`. Strings are sequences of
    Unicode scalar values; the text normaliser (lower-casing and diacritic
    stripping) is not defined here but passed to its users as a parameter. */
module Text {

  /** The characters `trim` removes: ECMAScript WhiteSpace (tab, vertical tab,
      form feed, space, no-break space, byte-order mark and every `Zs`
      separator) and LineTerminator (LF, CR, U+2028, U+2029). */
  predicate IsSpace(c: char) {
    var n := c as int;
    || 0x09 <= n <= 0x0D || n == 0x20 || n == 0xA0 || n == 0x1680
    || 0x2000 <= n <= 0x200A || n == 0x2028 || n == 0x2029 || n == 0x202F
    || n == 0x205F || n == 0x3000 || n == 0xFEFF
  }

  predicate AllSpace(s: string) {
    forall i :: 0 <= i < |s| ==> IsSpace(s[i])
  }

  /** Neither end of `s` is white space. */
  predicate IsTrimmed(s: string) {
    |s| == 0 || (!IsSpace(s[0]) && !IsSpace(s[|s| - 1]))
  }

  function TrimStart(s: string): (r: string)
    ensures |r| <= |s| && r == s[|s| - |r|..]
    ensures AllSpace(s[..|s| - |r|])
    ensures |r| == 0 || !IsSpace(r[0])
  {
    if |s| > 0 && IsSpace(s[0]) then TrimStart(s[1..]) else s
  }

  function TrimEnd(s: string): (r: string)
    ensures |r| <= |s| && r == s[..|r|]
    ensures AllSpace(s[|r|..])
    ensures |r| == 0 || !IsSpace(r[|r| - 1])
  {
    if |s| > 0 && IsSpace(s[|s| - 1]) then TrimEnd(s[..|s| - 1]) else s
  }

  /** `r` is `s` with the white space `s[..k]` and `s[k + |r|..]` cut off. */
  predicate IsTrimOf(r: string, s: string, k: int) {
    0 <= k <= |s| - |r| && r == s[k..k + |r|] && AllSpace(s[..k]) && AllSpace(s[k + |r|..])
  }

  /** `s.trim()`: the result has no white space at either end, and `s` is the
      result with white space added on both sides. */
  function Trim(s: string): (r: string)
    ensures IsTrimmed(r)
    ensures exists k :: IsTrimOf(r, s, k)
  {
    var t := TrimStart(s);
    var r := TrimEnd(t);
    TrimCompose(s, t, r);
    r
  }

  /** Cutting white space from the front and then from the back leaves a
      trimmed core of the original. */
  lemma TrimCompose(s: string, t: string, r: string)
    requires |t| <= |s| && t == s[|s| - |t|..] && AllSpace(s[..|s| - |t|])
    requires |r| <= |t| && r == t[..|r|] && AllSpace(t[|r|..])
    ensures IsTrimOf(r, s, |s| - |t|)
  {
    var k := |s| - |t|;
    assert s[k..k + |r|] == r;
    assert s[k + |r|..] == t[|r|..];
  }

  /** A non-space character of `s` lies inside any trimmed core of `s`. */
  lemma CoreHoldsNonSpace(r: string, s: string, k: int, i: int)
    requires IsTrimOf(r, s, k) && 0 <= i < |s| && !IsSpace(s[i])
    ensures k <= i < k + |r|
  {
  }

  /** A string has only one trimmed core. */
  lemma TrimmedCoreUnique(a: string, m: string, b: string, r: string, k: int)
    requires AllSpace(a) && AllSpace(b) && IsTrimmed(m)
    requires IsTrimmed(r) && IsTrimOf(r, a + m + b, k)
    ensures r == m
  {
    var s := a + m + b;
    if |m| == 0 {
      assert s == a + b;
      if |r| > 0 {
        CoreHoldsNonSpace(r, s, k, k);
      }
    } else {
      var lo, hi := |a|, |a| + |m| - 1;
      assert s[lo] == m[0] && s[hi] == m[|m| - 1];
      CoreHoldsNonSpace(r, s, k, lo);
      CoreHoldsNonSpace(r, s, k, hi);
      assert r[0] == s[k] && r[|r| - 1] == s[k + |r| - 1];
      assert k == lo && |r| == |m|;
      assert r == s[|a|..|a| + |m|];
    }
  }

  /** Padding a trimmed string with white space and trimming it again gives
      back that string: together with `Trim`'s contract this fixes the result. */
  lemma TrimPadded(a: string, m: string, b: string)
    requires AllSpace(a) && AllSpace(b) && IsTrimmed(m)
    ensures Trim(a + m + b) == m
  {
    var r := Trim(a + m + b);
    var k :| IsTrimOf(r, a + m + b, k);
    TrimmedCoreUnique(a, m, b, r, k);
  }

  /** A string with no white space at either end is its own trim. */
  lemma TrimOfTrimmed(m: string)
    requires IsTrimmed(m)
    ensures Trim(m) == m
  {
    TrimPadded("", m, "");
    assert "" + m + "" == m;
  }

  /** `s.startsWith(p)`. */
  predicate StartsWith(s: string, p: string) {
    |p| <= |s| && s[..|p|] == p
  }

  /** Strings whose first characters differ do not start one with the other. */
  lemma FirstCharDiffers(s: string, p: string)
    requires |s| > 0 && |p| > 0 && s[0] != p[0]
    ensures !StartsWith(s, p)
  {
    if |p| <= |s| {
      assert s[..|p|][0] == s[0];
    }
  }

  lemma StartsWithSelf(s: string)
    ensures StartsWith(s, s)
  {
    assert s[..|s|] == s;
  }

  /** `needle` occurs in `hay` starting at position `i`. */
  predicate OccursAt(hay: string, needle: string, i: int) {
    0 <= i <= |hay| - |needle| && hay[i..i + |needle|] == needle
  }

  /** `hay.includes(needle)`: `needle` occurs as a contiguous piece of `hay`. */
  predicate Includes(hay: string, needle: string) {
    exists i :: 0 <= i <= |hay| - |needle| && OccursAt(hay, needle, i)
  }

  /** `s.split(sep)[0]` for a one-character separator: everything before the
      first `sep`, or all of `s` when `sep` does not occur. */
  function BeforeFirst(s: string, sep: char): (r: string)
    ensures StartsWith(s, r)
    ensures sep !in r
    ensures |r| < |s| ==> s[|r|] == sep
  {
    if |s| == 0 || s[0] == sep then "" else [s[0]] + BeforeFirst(s[1..], sep)
  }

  /** When `sep` does not occur in `a`, splitting `a + [sep] + b` at `sep`
      yields `a`. */
  lemma BeforeFirstAt(a: string, sep: char, b: string)
    requires sep !in a
    ensures BeforeFirst(a + [sep] + b, sep) == a
  {
    var s := a + [sep] + b;
    var r := BeforeFirst(s, sep);
    assert s[|a|] == sep;
    assert r == s[..|r|];
  }

  /** The replacement `escapeHtml` makes for one character. */
  function EscapeChar(c: char): string {
    match c
    case '&' => "&amp;"
    case '<' => "&lt;"
    case '>' => "&gt;"
    case '"' => "&quot;"
    case '\'' => "&#039;"
    case _ => [c]
  }

  predicate IsMarkup(c: char) {
    c == '<' || c == '>' || c == '"' || c == '\''
  }

  /** `escapeHtml(str)` for a string argument: the five HTML-special
      characters are replaced by their entities. */
  function EscapeHtml(s: string): (r: string)
    ensures forall i :: 0 <= i < |r| ==> !IsMarkup(r[i])
    ensures |r| >= |s|
  {
    if |s| == 0 then "" else EscapeChar(s[0]) + EscapeHtml(s[1..])
  }

  /** How an HTML parser reads the escaped text back: each of the five
      entities becomes its character, anything else stands for itself. */
  function UnescapeHtml(s: string): string
    decreases |s|
  {
    if |s| == 0 then ""
    else if s[0] != '&' then [s[0]] + UnescapeHtml(s[1..])
    else if StartsWith(s, "&amp;") then "&" + UnescapeHtml(s[5..])
    else if StartsWith(s, "&lt;") then "<" + UnescapeHtml(s[4..])
    else if StartsWith(s, "&gt;") then ">" + UnescapeHtml(s[4..])
    else if StartsWith(s, "&quot;") then "\"" + UnescapeHtml(s[6..])
    else if StartsWith(s, "&#039;") then "'" + UnescapeHtml(s[6..])
    else "&" + UnescapeHtml(s[1..])
  }

  lemma UnescapeChar(c: char, rest: string)
    ensures UnescapeHtml(EscapeChar(c) + rest) == [c] + UnescapeHtml(rest)
  {
    var e := EscapeChar(c);
    var s := e + rest;
    assert s[..|e|] == e;
    assert s[|e|..] == rest;
    if !IsMarkup(c) && c != '&' {
      assert s[0] == c;
    } else {
      assert s[0] == '&';
      if c == '<' || c == '>' || c == '"' || c == '\'' {
        assert !StartsWith(s, "&amp;") by { assert s[1] != 'a'; }
      }
      if c == '>' || c == '"' || c == '\'' {
        assert !StartsWith(s, "&lt;") by { assert s[1] != 'l'; }
      }
      if c == '"' || c == '\'' {
        assert !StartsWith(s, "&gt;") by { assert s[1] != 'g'; }
      }
      if c == '\'' {
        assert !StartsWith(s, "&quot;") by { assert s[1] != 'q'; }
      }
    }
  }

  /** Escaping loses nothing: decoding the five entities gives back the
      input. */
  lemma {:induction false} EscapeHtmlRoundTrip(s: string)
    ensures UnescapeHtml(EscapeHtml(s)) == s
  {
    if |s| > 0 {
      EscapeHtmlRoundTrip(s[1..]);
      UnescapeChar(s[0], EscapeHtml(s[1..]));
      assert [s[0]] + s[1..] == s;
    }
  }
}
